=== FILE: README.md ===
# float_crush quantization core, in Dafny

This project models the quantization engine of the float_crush bit-crusher plugin (`src/crush.rs`).
The engine snaps the magnitude of an audio sample onto a coarse grid that imitates a custom
floating-point format, then puts the sign back. It has five parts:

- **`SampleRange`** (module `Ranges`): an interval whose constructor orders its two ends.
- **`SearchType`** (module `Steps`): the step function that maps a grid index to a value. The
  `Mantissa` variant steps from `high` down to `low`, either linearly (`bias == 1`) or warped
  through `(bias^m - 1) / (bias - 1)`. The `Exponent` variant returns `bias^-index`.
- **`SearchRange`** (module `Search`): the binary-search controller. It is a class whose `start`
  and `length` fields are rewritten in place by `Cull`. Its value is the datatype `SearchState`.
  `SearchState.Next` is the pure transition that specifies `Cull`. `SearchState.Run` is what
  repeated `cull` calls end with.
- **`Quantizator`** (module `Quantizers`): the rounding policy (`RoundUp`, `Nearest`, `RoundDown`)
  that picks one value of a bracketing pair.
- **`search_mantissa`** (module `Crush`): the entry point `SearchMantissa`. It handles the
  below-floor case (an implicit grid point 0) and the zero-step case. Otherwise it loops on `Cull`
  until the result is terminal and multiplies by the sample's polarity. It is proved equal to the
  function `Crushed`.

Module `Vectors` restates the concrete cases of the unit tests in `src/crush.rs`, plus three further worked cases.

Samples are `real`. `u32` indices are `nat`. Exponentiation (`f32::powf`, `f32::powi`) is the
function parameter `pow`. `PowLaws(pow)` assumes only four facts about it: `b^0 = 1`, `b^1 = b`,
`b^x` increases in `x` for `b > 1`, and it decreases in `x` for `0 < b < 1`. From these facts
the model proves that the warped mantissa grid spans its range and never rises. The linear grid
is proved to span its range without any assumption.

What is proved, in the system's terms:

- The search keeps the target bracketed: `get(start) >= sample >= get(start + length)`. Each cut
  keeps about half of the window. The window only moves inward. The window strictly shrinks
  until one step is left, so the search always ends. A search over `n` steps makes at most
  `⌈log2 n⌉ + 1` calls of `cull`, and exactly that many when it ends on a pair: the last call
  only reports the pair. The 4-step test makes 3 calls.
- Over a grid that spans the range, `search_mantissa` lands on a grid value, and on the right one:
  - `Nearest` gives the nearest grid value, so it also leaves a grid value unchanged.
  - `RoundUp` gives a grid value at or above the sample, with no grid value strictly between.
  - `RoundDown` gives a grid value at or below the sample, likewise.
- Whatever the policy, the result magnitude is a point of the format: 0, `low`, `high` or a
  mantissa grid value. It lies in `[0, high]`. The guard cases give `{0, low}` and `{high, low}`.
  A negated sample gives the negated result.

Two behaviours of the code are worth knowing:

- `Nearest` returns a grid value unchanged (`Crush.NearestIsIdempotent`). `RoundUp` and `RoundDown`
  do not always. A search on a grid value stops with `ExactMatch` only when that value is probed as
  a centre; otherwise it ends on a pair with the value at one end. `RoundDown` then moves a value
  that is the pair's upper end down to the lower end, and `RoundUp` moves a value that is the
  lower end up to the upper end. `Vectors.DirectedRoundingAtWindowEnds` shows this with 2 steps
  over [0, 1]: `RoundDown` maps 1.0 to 0.5 and `RoundUp` keeps it; `RoundUp` maps 0.0 to 0.5.
- The `Exponent` grid `bias^-index` falls for `bias > 1` but rises for `bias < 1`
  (`Steps.ExponentFalloff`). Only the mantissa grid is non-increasing for every positive bias.

## Model

| member | source | states |
|---|---|---|
| `Ranges.SampleRange.New` | src/crush.rs:184-187 | the result is ordered (`low <= high`) and its two ends are exactly the two arguments |
| `Ranges.SampleRange.Distance` | src/crush.rs:189-191 | `low + distance == high`; the distance is non-negative exactly for an ordered range |
| `Ranges.SampleRange.InRange` | src/crush.rs:193-195 | a point is in range exactly when it lies at most `distance` above `low`; only an ordered range holds any point |
| `Ranges.NewIsSymmetric` | src/crush.rs:184-187 | building a range does not depend on the order of its arguments |
| `Ranges.InRangeOfNew` | src/crush.rs:193-195 | a point is in a built range exactly when it lies between the two arguments |
| `Quantizers.Quantizator.FromI32` | src/crush.rs:54-62 | zero gives `Nearest`, a positive control `RoundUp`, a negative one `RoundDown` (each an if-and-only-if) |
| `Quantizers.Quantizator.QuantizeAbs` | src/crush.rs:64-75 | the result is one of the two bounds; `RoundUp` gives the upper, `RoundDown` the lower; `Nearest` gives the upper exactly when the sample is above the midpoint, the closer bound of an ordered pair, and the lower on a tie |
| `Quantizers.QuantizeWithinBracket` | src/crush.rs:64-75 | every policy's result lies between the two bounds |
| `Steps.SearchType.Length` | src/crush.rs:86-91 | both variants report their configured step count |
| `Steps.LinearMantissaGrid` | src/crush.rs:95-99 | the linear grid starts at `high`, ends at `low`, and two indices differ by `distance * (j - i) / length` |
| `Steps.LinearMantissaSpans` | src/crush.rs:95-99 | the linear grid spans an ordered range, never rising, and strictly falling when `low < high` |
| `Steps.WarpRises` | src/crush.rs:100-102 | the warp position `(bias^m - 1) / (bias - 1)` strictly increases with `m`, for any positive bias other than 1 |
| `Steps.WarpedMantissaEnds` | src/crush.rs:100-104 | the warped grid starts at `high` and ends at `low` |
| `Steps.WarpedMantissaStep` | src/crush.rs:100-104 | a later index of the warped grid is no higher, and is strictly lower when `low < high` |
| `Steps.WarpedMantissaSpans` | src/crush.rs:100-104 | the warped grid spans an ordered range, never rising, and strictly falling when `low < high` |
| `Steps.ExponentFalloff` | src/crush.rs:106-108 | the exponent grid starts at 1; it strictly falls for `bias > 1` and strictly rises for `bias < 1` |
| `Steps.ExponentNonIncreasing` | src/crush.rs:106-108 | an exponent grid of at least one step never rises when its bias is above 1, and does rise somewhere when its bias is below 1 |
| `Steps.FindMSample` | src/crush.rs:199-209 | `find_m_sample` equals the mantissa step function over the range from `high_end` down by `sample_range` |
| `Search.SearchState.HalfLength` | src/crush.rs:143-145 | the half length is the floor of `length / 2` (`2h <= length < 2h + 2`) |
| `Search.SearchState.Center` | src/crush.rs:139-141 | the centre lies in the window, strictly before its end when the window is not empty, and splits it into two parts differing by at most one |
| `Search.SearchState.CenterSample` | src/crush.rs:165-167 | over a grid that never rises, the centre value lies between the values at the window's two ends |
| `Search.SearchState.Next` | src/crush.rs:147-163 | `TwoLeft` exactly when one step is left, with the window's two ends; `ExactMatch(sample)` exactly when more than one step is left and the centre value equals the sample; otherwise a cut: a centre value above the sample moves `start` to the centre, one below keeps `start`, and both set `length - length/2`, so a window of 2 or more strictly shrinks and stays non-empty; a terminal report changes nothing |
| `Search.SearchState.Run` | src/crush.rs:20-28 | repeated culls from a non-empty window always end with a terminal report |
| `Search.RunOnGrid` | src/crush.rs:147-163 | whatever the grid's shape, a search reports grid values of its window: `ExactMatch(sample)` with the sample on a grid index, or `TwoLeft` of two adjacent grid values and the sample |
| `Search.CeilLog2IsLog` | src/crush.rs:157-160 | the number of halvings keeping the larger half that bring `n` to 1 is `⌈log2 n⌉`: `2^(c-1) < n <= 2^c` |
| `Search.CullBound` | src/crush.rs:147-163 | a search over `n` steps makes at most `⌈log2 n⌉ + 1` culls, and exactly that many when it ends with `TwoLeft` |
| `Search.NextKeepsBracket` | src/crush.rs:147-163 | over a grid that never rises, a cut keeps the target between the grid values at the window's ends |
| `Search.RunFindsBracket` | src/crush.rs:147-163 | a search from a bracketed window ends with `ExactMatch(sample)` at some grid value of the window, or with `TwoLeft` of two adjacent grid values of the window that bracket the target |
| `Search.SearchRange.constructor` | src/crush.rs:129-135 | a new controller starts at index 0 with the search type's full length and stores the grid and target unchanged |
| `Search.SearchRange.New` | src/crush.rs:122-137 | it fails exactly when the target is outside the range; otherwise it gives a fresh controller with `start = 0`, `length = search_type.length()` and the target unchanged |
| `Search.SearchRange.Cull` | src/crush.rs:147-163 | the report and the rewritten `start`/`length` are those of `SearchState.Next` on the old state |
| `Crush.Abs` | src/crush.rs:4 | the magnitude is non-negative and is the sample or its negation |
| `Crush.Polarity` | src/crush.rs:36-40 | the polarity is +1 exactly for a non-negative sample, else -1, and polarity times magnitude gives back the sample |
| `Crush.MixDryWet` | src/crush.rs:42-44 | gains (1, 0) and (0, 1) give back the dry and the wet signal; gains summing to one crossfade, `dry + wet_gain * (wet - dry)` |
| `Crush.MixDryWetBlends` | src/crush.rs:42-44 | non-negative gains summing to one give a value between the smaller and the larger of the two signals, whichever order they come in |
| `Crush.Settle` | src/crush.rs:21-26 | an exact match gives its value; a pair gives one of its two ends, and a value between them for an ordered pair |
| `Crush.Magnitude` | src/crush.rs:3-28 | the magnitude is a point of the format: `0` or `low` below the floor, `high` or `low` with no steps, and otherwise a value of the mantissa grid, whatever the policy |
| `Crush.Crushed` | src/crush.rs:3-28 | a non-negative sample gives its quantized magnitude; a negative one gives the negated quantized magnitude of its size |
| `Crush.SearchMantissa` | src/crush.rs:3-30 | for every input that does not reach the failing `unwrap` (below the floor, no steps, or a magnitude at most `high`), the result equals `Crushed`: the guards, then the loop over `Cull`, then the polarity |
| `Crush.CrushedIsOdd` | src/crush.rs:3-13 | negating a non-zero sample negates the result, and the result's size is the quantized magnitude |
| `Crush.BelowFloor` | src/crush.rs:7-9 | below `low` the magnitude is `low` (`RoundUp`), 0 (`RoundDown`), or `low` exactly when the magnitude is above `low / 2` (`Nearest`) |
| `Crush.NoSteps` | src/crush.rs:11-13 | with no mantissa steps any magnitude from `low` up, even above `high`, becomes `high` or `low`: `high` for `RoundUp`, `low` for `RoundDown` |
| `Crush.PairQuantization` | src/crush.rs:24-25 | choosing within an adjacent bracketing pair of a non-rising grid is choosing the right grid value among the whole grid |
| `Crush.GridQuantization` | src/crush.rs:15-28 | over a grid that spans the range, the magnitude lies in `[low, high]` and is the grid value the policy asks for: nearest, next up or next down |
| `Crush.NearestIsIdempotent` | src/crush.rs:20-28 | `Nearest` leaves a grid value unchanged |
| `Crush.MagnitudeBounds` | src/crush.rs:3-30 | for `0 <= low`, the magnitude lies in `[0, high]` for every magnitude the source accepts |
| `Vectors.SampleRangeVector` | src/crush.rs:254-261 | `new(4, 5)` has `high = 5`, `low = 4` and distance 1 |
| `Vectors.FindMSampleVectors` | src/crush.rs:242-252 | the linear step values 1.0, 0.9, 0.8 for 10 steps and 0.25 at index 3 of 4 steps |
| `Vectors.LinearMantissaVectors` | src/crush.rs:233-240 | 0.6 over [0, 1] with `Nearest` gives 1.0, 1.0, 0.5, 0.5, 0.625, 0.625, 0.59375, 0.59375 for 0, 1, 2, 4, 8, 16, 32, 64 steps |
| `Vectors.CullsOfTest4` | src/crush.rs:236 | the 4-step search for 0.6 over [0, 1] makes 3 culls, `⌈log2 4⌉ + 1` |
| `Vectors.DirectedRoundingAtWindowEnds` | src/crush.rs:147-163 | with 2 steps over [0, 1], `RoundUp` keeps the centre 0.5 and the upper end 1.0 but moves 0.0 to 0.5, and `RoundDown` moves 1.0 to 0.5 |
| `Vectors.NoStepsAboveCeiling` | src/crush.rs:11-13 | with no steps over [0.25, 0.5], 0.7 gives 0.5 under `Nearest` and -0.7 gives -0.25 under `RoundDown` |

## Left out

- `src/lib.rs` is not part of this model. It holds the plugin packaging, the parameter declarations and the host-driven `process` callback, with its own linear-scan quantizer. It does not call the core.
- `src/ui.rs` and `src/ui/knob.rs` are not part of this model: they are GUI widgets on foreign library types.
- No code in the repository combines an exponent search with a mantissa search, so such a two-stage search is not modelled. `Search.RunFindsBracket` needs a grid that never rises; an `Exponent` grid never rises when its bias is above 1 and rises when it is below 1 (`Steps.ExponentNonIncreasing`); at bias 1 it is constant at 1, a case `PowLaws` does not fix.
- `powf` and `powi` are not computed. They are the parameter `pow`, and only `PowLaws` is assumed about it.
- f32 arithmetic is not modelled: rounding, overflow, NaN and infinities. Values are exact reals. The unit-test values are dyadic or exact decimals, so the reals give them exactly.
- A `Mantissa` grid with 0 steps divides by zero in the source, which in f32 yields infinities or NaN. `Steps.GetSample` and `Steps.FindMSample` require a non-zero mantissa length instead. `search_mantissa` never gets there, because it handles 0 steps before the search.
- `half_length` goes through an f32 cast and `floor`. It is modelled as integer division by 2. The two agree for lengths below 2^24.
- `u32` width is not modelled. The search never indexes past `start + length <= length()`, so it cannot overflow.
- The `bias == 1.` test is exact equality on reals, as in the source. Its fragility near 1 is a floating-point effect and is not modelled.
- `Crush.Polarity` treats 0 as positive. The sign bit of `-0.0` (`is_sign_positive`) is not modelled.
- `Crush.CrushedIsOdd` excludes the sample 0. In f32, `-0.0` has polarity -1. Over the reals, 0 and -0 are the same value, so the source's sign symmetry at zero cannot be stated.
- The float rounding of `mix_dry_wet` is not modelled; `Crush.MixDryWet` and `Crush.MixDryWetBlends` state the exact blend.
- `Crush.SearchMantissa` requires that the source's `unwrap` succeed: with at least one mantissa step and a magnitude above `high`, the source panics, and the panic is not modelled. `Crush.Crushed` is still defined there.
- `SearchRange::new`'s `anyhow` error becomes `Err("not in range")`. The error's type and backtrace are not modelled.

=== FILE: crush.dfy ===
/** The quantization entry point `search_mantissa` and its small numeric helpers. */
module Crush {
  import opened Ranges
  import opened Quantizers
  import opened Steps
  import opened Search

  function Abs(x: real): (a: real)
    ensures a >= 0.0 && (a == x || a == -x)
  {
    if x >= 0.0 then x else -x
  }

  /** The sign of a sample as a factor; zero counts as positive. */
  function Polarity(x: real): (p: real)
    ensures p == 1.0 || p == -1.0
    ensures p == 1.0 <==> x >= 0.0
    ensures p * Abs(x) == x
  {
    if x >= 0.0 then 1.0 else -1.0
  }

  /** Linear blend of the dry and the wet signal, each scaled by its own gain. Gains summing
      to one crossfade from `dry` towards `wet`; the extreme settings give back one signal. */
  function MixDryWet(dry: real, dryGain: real, wet: real, wetGain: real): (r: real)
    ensures dryGain == 1.0 && wetGain == 0.0 ==> r == dry
    ensures dryGain == 0.0 && wetGain == 1.0 ==> r == wet
    ensures dryGain + wetGain == 1.0 ==> r == dry + wetGain * (wet - dry)
  {
    (dry * dryGain) + (wet * wetGain)
  }

  function Min(x: real, y: real): real {
    if x <= y then x else y
  }

  function Max(x: real, y: real): real {
    if x <= y then y else x
  }

  /** Non-negative gains that sum to one give a result between the two signals,
      whichever of them is the larger. */
  lemma MixDryWetBlends(dry: real, dryGain: real, wet: real, wetGain: real)
    requires 0.0 <= dryGain && 0.0 <= wetGain && dryGain + wetGain == 1.0
    ensures Min(dry, wet) <= MixDryWet(dry, dryGain, wet, wetGain) <= Max(dry, wet)
  {
    if dry <= wet {
      NonNegativeProduct(wetGain, wet - dry);
      assert MixDryWet(dry, dryGain, wet, wetGain) == wet - dryGain * (wet - dry);
      NonNegativeProduct(dryGain, wet - dry);
    } else {
      NonNegativeProduct(wetGain, dry - wet);
      assert MixDryWet(dry, dryGain, wet, wetGain) == wet + dryGain * (dry - wet);
      NonNegativeProduct(dryGain, dry - wet);
    }
  }

  lemma NonNegativeProduct(x: real, y: real)
    requires 0.0 <= x && 0.0 <= y
    ensures 0.0 <= x * y
  {
  }

  /** The magnitude a terminal report stands for, after the policy has chosen within a pair. */
  function Settle(quantizer: Quantizator, report: CullResult): (v: real)
    requires !report.CutHalf?
    ensures report.ExactMatch? ==> v == report.value
    ensures report.TwoLeft? ==> v == report.upper || v == report.lower
    ensures report.TwoLeft? && report.lower <= report.upper ==> report.lower <= v <= report.upper
  {
    match report
    case ExactMatch(v) => v
    case TwoLeft(upper, lower, v) => quantizer.QuantizeAbs(upper, lower, v)
  }

  /** The quantized magnitude of a sample magnitude `a`: below the floor the policy chooses
      between `low` and an implicit 0; with no steps, between `high` and `low`; otherwise the
      result of the search over the mantissa grid. Whatever the policy, the result is a point
      of the format: 0, `low`, `high` or a mantissa grid value. */
  function Magnitude(mantissa: nat, mBias: real, range: SampleRange, a: real, quantizer: Quantizator, pow: Pow): (m: real)
    ensures a < range.low ==> m == 0.0 || m == range.low
    ensures range.low <= a && mantissa == 0 ==> m == range.high || m == range.low
    ensures range.low <= a && mantissa > 0 ==>
              exists k: nat | k <= mantissa :: GetSample(Mantissa(mantissa, mBias), k, range, pow) == m
  {
    if a < range.low then
      quantizer.QuantizeAbs(range.low, 0.0, a)
    else if mantissa == 0 then
      quantizer.QuantizeAbs(range.high, range.low, a)
    else
      var search := SearchState(0, mantissa, Mantissa(mantissa, mBias), range, a);
      RunOnGrid(search, pow);
      Settle(quantizer, search.Run(pow))
  }

  /** What `search_mantissa` returns: the quantized magnitude with the sample's sign put back. */
  function Crushed(mantissa: nat, mBias: real, range: SampleRange, sample: real, quantizer: Quantizator, pow: Pow): (r: real)
    ensures sample >= 0.0 ==> r == Magnitude(mantissa, mBias, range, sample, quantizer, pow)
    ensures sample < 0.0 ==> r == -Magnitude(mantissa, mBias, range, -sample, quantizer, pow)
  {
    Magnitude(mantissa, mBias, range, Abs(sample), quantizer, pow) * Polarity(sample)
  }

  /** Quantizes `sample` onto a grid of `mantissa` steps over `range`, by binary search. */
  method SearchMantissa(mantissa: nat, mBias: real, range: SampleRange, sample: real, quantizer: Quantizator, pow: Pow)
    returns (r: real)
    // the search's `unwrap` needs the magnitude in range once the two guards are passed
    requires Abs(sample) < range.low || mantissa == 0 || Abs(sample) <= range.high
    ensures r == Crushed(mantissa, mBias, range, sample, quantizer, pow)
  {
    var sampleAbs := Abs(sample);
    var polarity := Polarity(sample);

    if sampleAbs < range.low {
      return quantizer.QuantizeAbs(range.low, 0.0, sampleAbs) * polarity;
    }

    if mantissa == 0 {
      return quantizer.QuantizeAbs(range.high, range.low, sampleAbs) * polarity;
    }

    var searchType := Mantissa(mantissa, mBias);
    var built := SearchRange.New(searchType, range, sampleAbs, pow);
    var searchRange := built.value;
    ghost var initial := searchRange.State();

    var magnitude: real;
    while true
      invariant fresh(searchRange) && searchRange.pow == pow && searchRange.searchType == searchType
      invariant searchRange.length >= 1
      invariant searchRange.State().Run(pow) == initial.Run(pow)
      decreases searchRange.length
    {
      ghost var before := searchRange.State();
      var report := searchRange.Cull();
      RunUnfolds(before, pow);
      if report.ExactMatch? {
        assert report == initial.Run(pow);
        magnitude := report.value;
        break;
      } else if report.TwoLeft? {
        assert report == initial.Run(pow);
        magnitude := quantizer.QuantizeAbs(report.upper, report.lower, report.target);
        break;
      }
    }
    CrushedBySearch(mantissa, mBias, range, sample, quantizer, pow, magnitude, polarity);
    r := magnitude * polarity;
  }

  /** Past the two guards, the result is the search's settled report with the sign put back. */
  lemma CrushedBySearch(mantissa: nat, mBias: real, range: SampleRange, sample: real, quantizer: Quantizator, pow: Pow,
                        magnitude: real, polarity: real)
    requires 0 < mantissa && range.low <= Abs(sample) <= range.high
    requires magnitude == Settle(quantizer, SearchState(0, mantissa, Mantissa(mantissa, mBias), range, Abs(sample)).Run(pow))
    requires polarity == Polarity(sample)
    ensures Crushed(mantissa, mBias, range, sample, quantizer, pow) == magnitude * polarity
  {
  }

  /** One `cull` either ends the search with its report or leaves a window whose search ends the same way. */
  lemma RunUnfolds(s: SearchState, pow: Pow)
    requires s.searchType.WellFormed() && s.length >= 1
    ensures s.Next(pow).0.CutHalf? ==> s.Next(pow).1.length >= 1 && s.Next(pow).1.Run(pow) == s.Run(pow)
    ensures !s.Next(pow).0.CutHalf? ==> s.Next(pow).0 == s.Run(pow)
  {
  }

  /** The result's sign is the sample's and its size does not depend on the sign:
      a negated sample gives the negated result. */
  lemma CrushedIsOdd(mantissa: nat, mBias: real, range: SampleRange, sample: real, quantizer: Quantizator, pow: Pow)
    requires sample != 0.0
    ensures Crushed(mantissa, mBias, range, -sample, quantizer, pow) == -Crushed(mantissa, mBias, range, sample, quantizer, pow)
    ensures Abs(Crushed(mantissa, mBias, range, sample, quantizer, pow)) == Abs(Magnitude(mantissa, mBias, range, Abs(sample), quantizer, pow))
  {
  }

  /** Below the grid's floor the magnitude is `low` or 0, as the policy decides. */
  lemma BelowFloor(mantissa: nat, mBias: real, range: SampleRange, a: real, quantizer: Quantizator, pow: Pow)
    requires 0.0 <= a < range.low
    ensures quantizer == RoundUp ==> Magnitude(mantissa, mBias, range, a, quantizer, pow) == range.low
    ensures quantizer == RoundDown ==> Magnitude(mantissa, mBias, range, a, quantizer, pow) == 0.0
    ensures quantizer == Nearest ==>
              (Magnitude(mantissa, mBias, range, a, quantizer, pow) == range.low <==> a > range.low / 2.0)
    ensures quantizer == Nearest ==> Magnitude(mantissa, mBias, range, a, quantizer, pow) in {0.0, range.low}
  {
  }

  /** With no mantissa steps the magnitude is `high` or `low`, as the policy decides,
      even for a magnitude above `high`. */
  lemma NoSteps(mBias: real, range: SampleRange, a: real, quantizer: Quantizator, pow: Pow)
    requires range.low <= a
    ensures Magnitude(0, mBias, range, a, quantizer, pow) in {range.high, range.low}
    ensures quantizer == RoundUp ==> Magnitude(0, mBias, range, a, quantizer, pow) == range.high
    ensures quantizer == RoundDown ==> Magnitude(0, mBias, range, a, quantizer, pow) == range.low
  {
  }

  /** `m` is the grid value the policy asks for when quantizing `a`: the nearest grid value
      (`Nearest`); a grid value at or above `a` with no grid value strictly between them
      (`RoundUp`); or one at or below `a`, likewise (`RoundDown`). */
  ghost predicate Quantized(st: SearchType, range: SampleRange, pow: Pow, quantizer: Quantizator, a: real, m: real)
    requires st.WellFormed()
  {
    && (exists k: nat | k <= st.length :: GetSample(st, k, range, pow) == m)
    && (quantizer == Nearest ==>
          forall j: nat | j <= st.length :: Dist(m, a) <= Dist(GetSample(st, j, range, pow), a))
    && (quantizer == RoundUp ==>
          a <= m && forall j: nat | j <= st.length && GetSample(st, j, range, pow) > a :: m <= GetSample(st, j, range, pow))
    && (quantizer == RoundDown ==>
          m <= a && forall j: nat | j <= st.length && GetSample(st, j, range, pow) < a :: GetSample(st, j, range, pow) <= m)
  }

  /** Choosing within an adjacent pair of grid values that brackets `a` is choosing among the whole grid. */
  lemma PairQuantization(st: SearchType, range: SampleRange, pow: Pow, quantizer: Quantizator, a: real, i: nat)
    requires st.WellFormed() && NonIncreasing(st, range, pow) && i < st.length
    requires GetSample(st, i, range, pow) >= a >= GetSample(st, i + 1, range, pow)
    ensures Quantized(st, range, pow, quantizer, a,
                      quantizer.QuantizeAbs(GetSample(st, i, range, pow), GetSample(st, i + 1, range, pow), a))
  {
    var upper, lower := GetSample(st, i, range, pow), GetSample(st, i + 1, range, pow);
    var m := quantizer.QuantizeAbs(upper, lower, a);
    assert m == upper ==> GetSample(st, i, range, pow) == m;
    assert m == lower ==> GetSample(st, i + 1, range, pow) == m;
    forall j: nat | j <= st.length
      ensures j <= i ==> GetSample(st, j, range, pow) >= upper
      ensures i < j ==> GetSample(st, j, range, pow) <= lower
    {
    }
  }

  /** A target that is a grid value is the grid value every policy asks for. */
  lemma ExactQuantization(st: SearchType, range: SampleRange, pow: Pow, quantizer: Quantizator, a: real, k: nat)
    requires st.WellFormed() && NonIncreasing(st, range, pow) && k <= st.length
    requires GetSample(st, k, range, pow) == a
    ensures Quantized(st, range, pow, quantizer, a, a)
  {
    assert GetSample(st, k, range, pow) == a;
  }

  /** Over a grid that spans the range, the search lands on the grid value the policy asks for. */
  lemma GridQuantization(mantissa: nat, mBias: real, range: SampleRange, a: real, quantizer: Quantizator, pow: Pow)
    requires mantissa > 0 && range.low <= a <= range.high
    requires Spans(Mantissa(mantissa, mBias), range, pow)
    ensures range.low <= Magnitude(mantissa, mBias, range, a, quantizer, pow) <= range.high
    ensures Quantized(Mantissa(mantissa, mBias), range, pow, quantizer, a, Magnitude(mantissa, mBias, range, a, quantizer, pow))
  {
    var s := SearchState(0, mantissa, Mantissa(mantissa, mBias), range, a);
    SettledQuantization(s, quantizer, pow);
    assert Magnitude(mantissa, mBias, range, a, quantizer, pow) == Settle(quantizer, s.Run(pow));
  }

  /** A search over a whole spanning grid settles on the grid value the policy asks for. */
  lemma SettledQuantization(s: SearchState, quantizer: Quantizator, pow: Pow)
    requires s.searchType.WellFormed() && s.start == 0 && s.length == s.searchType.length >= 1
    requires s.range.low <= s.sample <= s.range.high && Spans(s.searchType, s.range, pow)
    ensures s.range.low <= Settle(quantizer, s.Run(pow)) <= s.range.high
    ensures Quantized(s.searchType, s.range, pow, quantizer, s.sample, Settle(quantizer, s.Run(pow)))
  {
    var st, range, a, n := s.searchType, s.range, s.sample, s.length;
    RunFindsBracket(s, pow);
    match s.Run(pow)
    case ExactMatch(v) =>
      var k: nat :| k <= n && GetSample(st, k, range, pow) == a;
      assert Settle(quantizer, s.Run(pow)) == a;
      ExactQuantization(st, range, pow, quantizer, a, k);
    case TwoLeft(upper, lower, v) =>
      var i: nat :| i < n && upper == GetSample(st, i, range, pow) && lower == GetSample(st, i + 1, range, pow)
                    && upper >= a >= lower;
      assert Settle(quantizer, s.Run(pow)) == quantizer.QuantizeAbs(upper, lower, a);
      PairQuantization(st, range, pow, quantizer, a, i);
      QuantizeWithinBracket(quantizer, upper, lower, a);
      assert GetSample(st, 0, range, pow) >= upper && lower >= GetSample(st, n, range, pow);
  }

  /** `Nearest` leaves a sample that already is a grid value unchanged. */
  lemma NearestIsIdempotent(mantissa: nat, mBias: real, range: SampleRange, k: nat, pow: Pow)
    requires 0 < mantissa && k <= mantissa
    requires Spans(Mantissa(mantissa, mBias), range, pow)
    ensures var a := GetSample(Mantissa(mantissa, mBias), k, range, pow);
            Magnitude(mantissa, mBias, range, a, Nearest, pow) == a
  {
    var a := GetSample(Mantissa(mantissa, mBias), k, range, pow);
    assert range.low <= a <= range.high;
    GridQuantization(mantissa, mBias, range, a, Nearest, pow);
    assert Dist(Magnitude(mantissa, mBias, range, a, Nearest, pow), a) <= Dist(a, a);
  }

  /** A result never exceeds the range's ceiling and never drops below 0 in magnitude. */
  lemma MagnitudeBounds(mantissa: nat, mBias: real, range: SampleRange, a: real, quantizer: Quantizator, pow: Pow)
    requires range.Ordered() && 0.0 <= range.low && 0.0 <= a && (a <= range.high || mantissa == 0)
    requires mantissa > 0 ==> Spans(Mantissa(mantissa, mBias), range, pow)
    ensures 0.0 <= Magnitude(mantissa, mBias, range, a, quantizer, pow) <= range.high
  {
    if a >= range.low && mantissa > 0 {
      GridQuantization(mantissa, mBias, range, a, quantizer, pow);
    }
  }
}

=== FILE: quantizer.dfy ===
/** The rounding policy that picks one of two bracketing grid values (`Quantizator`). */
module Quantizers {

  newtype i32 = x: int | -0x8000_0000 <= x < 0x8000_0000

  /** Distance between two reals. */
  function Dist(x: real, y: real): (d: real)
    ensures d >= 0.0
    ensures d == x - y || d == y - x
  {
    if x >= y then x - y else y - x
  }

  datatype Quantizator = RoundUp | Nearest | RoundDown {

    /** The control value's sign selects the policy: zero is `Nearest`. */
    static function FromI32(control: i32): (q: Quantizator)
      ensures q == Nearest <==> control == 0
      ensures q == RoundUp <==> control > 0
      ensures q == RoundDown <==> control < 0
    {
      if control == 0 then Nearest
      else if control > 0 then RoundUp
      else RoundDown
    }

    /** Chooses between `upper` and `lower` for a `sample` that lies between them. */
    function QuantizeAbs(upper: real, lower: real, sample: real): (r: real)
      ensures r == upper || r == lower
      ensures this == RoundUp ==> r == upper
      ensures this == RoundDown ==> r == lower
      // Nearest: the upper value exactly when the sample is strictly above the midpoint
      ensures this == Nearest && upper != lower ==> (r == upper <==> sample > (upper + lower) / 2.0)
      // Nearest picks the closer of the two, and a tie goes to the lower one
      ensures this == Nearest && lower <= upper ==> Dist(r, sample) <= Dist(upper, sample) && Dist(r, sample) <= Dist(lower, sample)
      ensures this == Nearest && lower < upper && Dist(upper, sample) == Dist(lower, sample) ==> r == lower
    {
      match this
      case Nearest =>
        var midpoint := (upper + lower) / 2.0;
        if sample > midpoint then upper else lower
      case RoundUp => upper
      case RoundDown => lower
    }
  }

  /** Every policy keeps a bracketed sample's result inside the bracket. */
  lemma QuantizeWithinBracket(q: Quantizator, upper: real, lower: real, sample: real)
    requires lower <= upper
    ensures lower <= q.QuantizeAbs(upper, lower, sample) <= upper
  {
  }
}

=== FILE: ranges.dfy ===
/** The ordered interval every quantization grid is laid over (`SampleRange` in src/crush.rs). */
module Ranges {

  /** `high` and `low` are private in the source and only `New` builds a range,
      so every range a caller can hold satisfies `Ordered()`. */
  datatype SampleRange = SampleRange(high: real, low: real) {

    predicate Ordered() {
      low <= high
    }

    /** Builds a range from an unordered pair: the larger end becomes `high`. */
    static function New(a: real, b: real): (r: SampleRange)
      ensures r.Ordered()
      ensures {r.high, r.low} == {a, b}
    {
      if a >= b then SampleRange(a, b) else SampleRange(b, a)
    }

    function Distance(): (d: real)
      ensures low + d == high
      ensures Ordered() <==> d >= 0.0
    {
      high - low
    }

    /** `x` lies in the range: at most `Distance()` above `low`; only an ordered range holds a point. */
    predicate InRange(x: real): (b: bool)
      ensures b <==> 0.0 <= x - low <= Distance()
      ensures b ==> Ordered()
    {
      x >= low && x <= high
    }
  }

  /** `New` does not depend on the order of its arguments. */
  lemma NewIsSymmetric(a: real, b: real)
    ensures SampleRange.New(a, b) == SampleRange.New(b, a)
  {
  }

  /** A point lies in a range exactly when it lies between the two ends it was built from. */
  lemma InRangeOfNew(a: real, b: real, x: real)
    ensures SampleRange.New(a, b).InRange(x) <==> (a <= x <= b || b <= x <= a)
  {
  }
}

=== FILE: search.dfy ===
/** The binary-search controller that narrows an index window over a step function
    (`SearchRange` and `CullResult`). */
module Search {
  import opened Ranges
  import opened Steps

  /** What one narrowing step reports: keep going, one adjacent pair is left, or the
      target sits exactly on the probed grid point. */
  datatype CullResult = CutHalf | TwoLeft(upper: real, lower: real, target: real) | ExactMatch(value: real)

  datatype Result<T> = Ok(value: T) | Err(reason: string)

  /** The value of a search: the window `[start, start + length]` of grid indices,
      the grid and the (non-negative) target `sample`. */
  datatype SearchState = SearchState(start: nat, length: nat, searchType: SearchType, range: SampleRange, sample: real) {

    function HalfLength(): (h: nat)
      ensures 2 * h <= length < 2 * h + 2
    {
      length / 2
    }

    /** The index probed next: the middle of the window, rounded towards `start`. */
    function Center(): (c: nat)
      ensures start <= c <= start + length
      ensures length >= 1 ==> c < start + length
      ensures c - start == (start + length) - c || c - start + 1 == (start + length) - c
    {
      start + HalfLength()
    }

    /** The grid value at the centre; over a grid that never rises it lies between the
        values at the window's two ends. */
    function CenterSample(pow: Pow): (v: real)
      requires searchType.WellFormed()
      ensures NonIncreasing(searchType, range, pow) && start + length <= searchType.length ==>
                GetSample(searchType, start + length, range, pow) <= v <= GetSample(searchType, start, range, pow)
    {
      GetSample(searchType, Center(), range, pow)
    }

    /** The target lies between the grid values at the two ends of the window. */
    ghost predicate Bracketed(pow: Pow)
      requires searchType.WellFormed()
    {
      GetSample(searchType, start, range, pow) >= sample >= GetSample(searchType, start + length, range, pow)
    }

    /** One call of `cull`: its report and the state it leaves behind. */
    function Next(pow: Pow): (r: (CullResult, SearchState))
      requires searchType.WellFormed()
      ensures r.1.searchType == searchType && r.1.range == range && r.1.sample == sample
      // a terminal report leaves the window alone
      ensures !r.0.CutHalf? ==> r.1 == this
      // the pair is reported exactly when one step is left, and it is the window's two ends
      ensures r.0.TwoLeft? <==> length == 1
      ensures r.0.TwoLeft? ==>
                r.0 == TwoLeft(GetSample(searchType, start, range, pow), GetSample(searchType, start + 1, range, pow), sample)
      // a centre hit ends the search unless one step is left; anything else is a cut
      ensures r.0.ExactMatch? ==> r.0 == ExactMatch(sample) && CenterSample(pow) == sample
      ensures length != 1 && CenterSample(pow) == sample ==> r.0 == ExactMatch(sample)
      ensures r.0.CutHalf? <==> length != 1 && CenterSample(pow) != sample
      // a cut keeps the lower-index half when the centre is below the target, else the upper half
      ensures r.0.CutHalf? && CenterSample(pow) > sample ==> r.1.start == Center()
      ensures r.0.CutHalf? && CenterSample(pow) < sample ==> r.1.start == start
      // a cut keeps about half: the window only moves inward and never grows
      ensures r.0.CutHalf? ==> start <= r.1.start && r.1.start + r.1.length <= start + length
      ensures r.0.CutHalf? ==> r.1.length == length - length / 2
      ensures r.0.CutHalf? && length >= 2 ==> 1 <= r.1.length < length
      // a cut of an empty window changes nothing, so a search over it never ends
      ensures r.0.CutHalf? && length == 0 ==> r.1 == this
    {
      var c := CenterSample(pow);
      if length == 1 then
        (TwoLeft(GetSample(searchType, start, range, pow), GetSample(searchType, start + 1, range, pow), sample), this)
      else if c == sample then
        (ExactMatch(sample), this)
      else if c > sample then
        (CutHalf, this.(start := Center(), length := length - HalfLength()))
      else
        (CutHalf, this.(length := length - HalfLength()))
    }

    /** The report that repeated `cull` calls end with. */
    function Run(pow: Pow): (r: CullResult)
      requires searchType.WellFormed() && length >= 1
      ensures !r.CutHalf?
      decreases length
    {
      var (report, next) := Next(pow);
      if report.CutHalf? then next.Run(pow) else report
    }

    /** How many `cull` calls the search makes, the last one included. */
    function Culls(pow: Pow): nat
      requires searchType.WellFormed() && length >= 1
      decreases length
    {
      var (report, next) := Next(pow);
      if report.CutHalf? then 1 + next.Culls(pow) else 1
    }
  }

  /** Whatever the grid's shape, a search reports grid values of its window: the target
      itself when it hit a centre, or two adjacent grid values. */
  lemma {:induction false} RunOnGrid(s: SearchState, pow: Pow)
    requires s.searchType.WellFormed() && s.length >= 1
    ensures s.Run(pow).ExactMatch? ==>
              s.Run(pow).value == s.sample &&
              exists k: nat | s.start <= k < s.start + s.length :: GetSample(s.searchType, k, s.range, pow) == s.sample
    ensures s.Run(pow).TwoLeft? ==>
              s.Run(pow).target == s.sample &&
              exists i: nat | s.start <= i < s.start + s.length ::
                && s.Run(pow).upper == GetSample(s.searchType, i, s.range, pow)
                && s.Run(pow).lower == GetSample(s.searchType, i + 1, s.range, pow)
    decreases s.length
  {
    var (report, next) := s.Next(pow);
    if report.CutHalf? {
      RunOnGrid(next, pow);
    } else if report.ExactMatch? {
      assert GetSample(s.searchType, s.Center(), s.range, pow) == s.sample;
    } else {
      assert s.Run(pow).upper == GetSample(s.searchType, s.start, s.range, pow);
    }
  }

  function Pow2(k: nat): nat {
    if k == 0 then 1 else 2 * Pow2(k - 1)
  }

  /** The number of halvings, each keeping the larger half, that bring `n` down to 1. */
  function CeilLog2(n: nat): nat
    requires n >= 1
  {
    if n == 1 then 0 else 1 + CeilLog2(n - n / 2)
  }

  /** `CeilLog2(n)` is the ceiling of the base-2 logarithm of `n`. */
  lemma {:induction false} CeilLog2IsLog(n: nat)
    requires n >= 1
    ensures n <= Pow2(CeilLog2(n))
    ensures n >= 2 ==> Pow2(CeilLog2(n) - 1) < n
  {
    if n >= 2 {
      var m := n - n / 2;
      CeilLog2IsLog(m);
      assert CeilLog2(n) == 1 + CeilLog2(m);
      if m >= 2 {
        assert Pow2(CeilLog2(m)) == 2 * Pow2(CeilLog2(m) - 1);
      }
    }
  }

  /** A search over `n` steps makes at most `CeilLog2(n) + 1` culls, and exactly that many
      when it ends on a pair: the last cull only reports the pair. */
  lemma {:induction false} CullBound(s: SearchState, pow: Pow)
    requires s.searchType.WellFormed() && s.length >= 1
    ensures s.Culls(pow) <= CeilLog2(s.length) + 1
    ensures s.Run(pow).TwoLeft? ==> s.Culls(pow) == CeilLog2(s.length) + 1
    decreases s.length
  {
    var (report, next) := s.Next(pow);
    if report.CutHalf? {
      assert next.length == s.length - s.length / 2 && s.length >= 2;
      CullBound(next, pow);
    }
  }

  /** A cut keeps the target bracketed, provided the grid never rises inside the window. */
  lemma NextKeepsBracket(s: SearchState, pow: Pow)
    requires s.searchType.WellFormed() && NonIncreasing(s.searchType, s.range, pow)
    requires s.start + s.length <= s.searchType.length && s.Bracketed(pow)
    ensures s.Next(pow).1.Bracketed(pow)
  {
    var (report, next) := s.Next(pow);
    if report.CutHalf? && s.CenterSample(pow) < s.sample {
      assert s.Center() <= next.start + next.length;
    }
  }

  /** The outcome of a whole search over a bracketed window: either the target is a grid
      value, or the reported pair is two adjacent grid values inside the window around it. */
  lemma {:induction false} RunFindsBracket(s: SearchState, pow: Pow)
    requires s.searchType.WellFormed() && NonIncreasing(s.searchType, s.range, pow)
    requires s.length >= 1 && s.start + s.length <= s.searchType.length && s.Bracketed(pow)
    ensures s.Run(pow).ExactMatch? ==>
              s.Run(pow) == ExactMatch(s.sample) &&
              exists k: nat | s.start <= k <= s.start + s.length :: GetSample(s.searchType, k, s.range, pow) == s.sample
    ensures s.Run(pow).TwoLeft? ==>
              exists i: nat | s.start <= i < s.start + s.length ::
                && s.Run(pow) == TwoLeft(GetSample(s.searchType, i, s.range, pow), GetSample(s.searchType, i + 1, s.range, pow), s.sample)
                && GetSample(s.searchType, i, s.range, pow) >= s.sample >= GetSample(s.searchType, i + 1, s.range, pow)
    decreases s.length
  {
    var (report, next) := s.Next(pow);
    if report.CutHalf? {
      NextKeepsBracket(s, pow);
      RunFindsBracket(next, pow);
    } else if report.ExactMatch? {
      assert GetSample(s.searchType, s.Center(), s.range, pow) == s.sample;
    } else {
      assert GetSample(s.searchType, s.start, s.range, pow) >= s.sample;
    }
  }

  /** The controller as the source keeps it: the window bounds are rewritten in place,
      the grid and the target never change. */
  class SearchRange {
    var start: nat
    var length: nat
    const searchType: SearchType
    const range: SampleRange
    const sample: real
    const pow: Pow

    function State(): SearchState
      reads this
    {
      SearchState(start, length, searchType, range, sample)
    }

    constructor (searchType: SearchType, range: SampleRange, sample: real, pow: Pow)
      ensures State() == SearchState(0, searchType.Length(), searchType, range, sample)
      ensures this.pow == pow
    {
      this.start := 0;
      this.length := searchType.Length();
      this.searchType := searchType;
      this.range := range;
      this.sample := sample;
      this.pow := pow;
    }

    /** Starts a search over the whole grid; refuses a target outside the range. */
    static method New(searchType: SearchType, range: SampleRange, sampleAbs: real, pow: Pow)
      returns (r: Result<SearchRange>)
      ensures r.Err? <==> !range.InRange(sampleAbs)
      ensures r.Ok? ==> fresh(r.value) && r.value.pow == pow
      ensures r.Ok? ==> r.value.State() == SearchState(0, searchType.length, searchType, range, sampleAbs)
    {
      if !range.InRange(sampleAbs) {
        r := Err("not in range");
      } else {
        var s := new SearchRange(searchType, range, sampleAbs, pow);
        r := Ok(s);
      }
    }

    /** One narrowing step, rewriting `start` and `length`. */
    method Cull() returns (r: CullResult)
      requires searchType.WellFormed()
      modifies this
      ensures (r, State()) == old(State()).Next(pow)
    {
      var cSample := State().CenterSample(pow);
      if length == 1 {
        var upper := GetSample(searchType, start, range, pow);
        var lower := GetSample(searchType, start + 1, range, pow);
        r := TwoLeft(upper, lower, sample);
      } else if cSample == sample {
        r := ExactMatch(sample);
      } else if cSample > sample {
        start, length := State().Center(), length - State().HalfLength();
        r := CutHalf;
      } else {
        length := length - State().HalfLength();
        r := CutHalf;
      }
    }
  }
}

=== FILE: steps.dfy ===
/** The step functions that map a grid index to the value it represents (`SearchType`). */
module Steps {
  import opened Ranges

  /** Stands for `f32::powf` / `f32::powi`: `pow(b, e)` is `b` raised to `e`. */
  type Pow = (real, real) -> real

  /** The only facts about exponentiation the model relies on. */
  ghost predicate PowLaws(pow: Pow) {
    && (forall b: real | 0.0 < b :: pow(b, 0.0) == 1.0 && pow(b, 1.0) == b)
    && (forall b: real, x: real, y: real | 0.0 < b && x < y ::
          (1.0 < b ==> pow(b, x) < pow(b, y)) && (b < 1.0 ==> pow(b, y) < pow(b, x)))
  }

  /** `length` is the number of steps of the grid, `bias` its warp (mantissa)
      or its base (exponent). */
  datatype SearchType = Mantissa(length: nat, bias: real) | Exponent(length: nat, bias: real) {

    function Length(): (n: nat)
      ensures n == length
    {
      match this
      case Mantissa(n, _) => n
      case Exponent(n, _) => n
    }

    /** A mantissa grid divides by its length: a zero-step mantissa grid has no values. */
    predicate WellFormed() {
      Mantissa? ==> length > 0
    }
  }

  /** The value grid index `index` stands for. */
  function GetSample(st: SearchType, index: nat, range: SampleRange, pow: Pow): real
    requires st.WellFormed()
  {
    match st
    case Mantissa(length, bias) =>
      range.high - (if bias == 1.0 then
                      var stepSize := range.Distance() / length as real;
                      stepSize * index as real
                    else
                      var m := index as real / length as real;
                      var position := (pow(bias, m) - 1.0) / (bias - 1.0);
                      position * range.Distance())
    case Exponent(_, bias) =>
      pow(bias, -(index as real))
  }

  /** The grid runs from `range.high` at index 0 down to `range.low` at index `length`,
      never rising in between. */
  ghost predicate Spans(st: SearchType, range: SampleRange, pow: Pow)
    requires st.WellFormed()
  {
    && GetSample(st, 0, range, pow) == range.high
    && GetSample(st, st.length, range, pow) == range.low
    && NonIncreasing(st, range, pow)
  }

  /** The grid never rises over the indices `0 ..= length` of the search type. */
  ghost predicate NonIncreasing(st: SearchType, range: SampleRange, pow: Pow)
    requires st.WellFormed()
  {
    forall i: nat, j: nat | i <= j <= st.length :: GetSample(st, i, range, pow) >= GetSample(st, j, range, pow)
  }

  /** The linear mantissa grid: equal steps of `distance / length` from `high` to `low`. */
  lemma LinearMantissaGrid(length: nat, range: SampleRange, pow: Pow, i: nat, j: nat)
    requires length > 0 && i <= j
    ensures GetSample(Mantissa(length, 1.0), 0, range, pow) == range.high
    ensures GetSample(Mantissa(length, 1.0), length, range, pow) == range.low
    ensures GetSample(Mantissa(length, 1.0), i, range, pow) - GetSample(Mantissa(length, 1.0), j, range, pow)
            == range.Distance() * (j - i) as real / length as real
  {
    var st := Mantissa(length, 1.0);
    var step := range.Distance() / length as real;
    assert GetSample(st, length, range, pow) == range.high - step * length as real;
    assert step * length as real == range.Distance();
    calc {
      GetSample(st, i, range, pow) - GetSample(st, j, range, pow);
      step * j as real - step * i as real;
      step * (j - i) as real;
      range.Distance() * (j - i) as real / length as real;
    }
  }

  /** The linear mantissa grid spans an ordered range, strictly falling when the range is not a point. */
  lemma LinearMantissaSpans(length: nat, range: SampleRange, pow: Pow)
    requires length > 0 && range.Ordered()
    ensures Spans(Mantissa(length, 1.0), range, pow)
    ensures range.low < range.high ==> forall i: nat, j: nat | i < j <= length ::
              GetSample(Mantissa(length, 1.0), i, range, pow) > GetSample(Mantissa(length, 1.0), j, range, pow)
  {
    var st := Mantissa(length, 1.0);
    LinearMantissaGrid(length, range, pow, 0, 0);
    forall i: nat, j: nat | i <= j <= length
      ensures GetSample(st, i, range, pow) >= GetSample(st, j, range, pow)
      ensures range.low < range.high && i < j ==> GetSample(st, i, range, pow) > GetSample(st, j, range, pow)
    {
      LinearMantissaGrid(length, range, pow, i, j);
      PositiveQuotient(range.Distance() * (j - i) as real, length as real);
    }
  }

  lemma PositiveQuotient(x: real, y: real)
    requires y > 0.0
    ensures x >= 0.0 ==> x / y >= 0.0
    ensures x > 0.0 ==> x / y > 0.0
  {
  }

  lemma DivSelf(x: real)
    requires x != 0.0
    ensures x / x == 1.0
  {
  }

  /** The position `(bias^m - 1) / (bias - 1)` of the warped grid grows with `m`. */
  lemma WarpRises(pow: Pow, bias: real, m: real, n: real)
    requires PowLaws(pow) && 0.0 < bias && bias != 1.0 && m < n
    ensures (pow(bias, m) - 1.0) / (bias - 1.0) < (pow(bias, n) - 1.0) / (bias - 1.0)
  {
    var d := (pow(bias, n) - 1.0) / (bias - 1.0) - (pow(bias, m) - 1.0) / (bias - 1.0);
    assert d == (pow(bias, n) - pow(bias, m)) / (bias - 1.0);
    if bias > 1.0 {
      PositiveQuotient(pow(bias, n) - pow(bias, m), bias - 1.0);
    } else {
      assert pow(bias, n) < pow(bias, m);
      assert d == (pow(bias, m) - pow(bias, n)) / (1.0 - bias);
      PositiveQuotient(pow(bias, m) - pow(bias, n), 1.0 - bias);
    }
  }

  /** The warped grid's ends are `high` and `low`, because `bias^0 = 1` and `bias^1 = bias`. */
  lemma WarpedMantissaEnds(length: nat, bias: real, range: SampleRange, pow: Pow)
    requires length > 0 && 0.0 < bias && bias != 1.0 && PowLaws(pow)
    ensures GetSample(Mantissa(length, bias), 0, range, pow) == range.high
    ensures GetSample(Mantissa(length, bias), length, range, pow) == range.low
  {
    assert 0 as real / length as real == 0.0;
    DivSelf(length as real);
    assert pow(bias, 1.0) == bias;
    DivSelf(bias - 1.0);
  }

  /** One pair of indices of the warped grid: the later one is no higher. */
  lemma WarpedMantissaStep(length: nat, bias: real, range: SampleRange, pow: Pow, i: nat, j: nat)
    requires length > 0 && range.Ordered() && 0.0 < bias && bias != 1.0 && PowLaws(pow) && i < j
    ensures GetSample(Mantissa(length, bias), i, range, pow) >= GetSample(Mantissa(length, bias), j, range, pow)
    ensures range.low < range.high ==>
              GetSample(Mantissa(length, bias), i, range, pow) > GetSample(Mantissa(length, bias), j, range, pow)
  {
    var mi, mj := i as real / length as real, j as real / length as real;
    assert mj - mi == (j - i) as real / length as real;
    PositiveQuotient((j - i) as real, length as real);
    WarpRises(pow, bias, mi, mj);
    WarpedSample(length, bias, range, pow, i);
    WarpedSample(length, bias, range, pow, j);
    ScaledOrder(GetSample(Mantissa(length, bias), i, range, pow), GetSample(Mantissa(length, bias), j, range, pow),
                range.high, (pow(bias, mi) - 1.0) / (bias - 1.0), (pow(bias, mj) - 1.0) / (bias - 1.0), range.Distance());
  }

  /** `top - p * d` falls as `p` grows, for a non-negative `d`. */
  lemma ScaledOrder(x: real, y: real, top: real, p: real, q: real, d: real)
    requires x == top - p * d && y == top - q * d && p < q && 0.0 <= d
    ensures x >= y
    ensures 0.0 < d ==> x > y
  {
    ProductSign(q - p, d);
    assert (q - p) * d == q * d - p * d;
  }

  lemma ProductSign(a: real, b: real)
    requires 0.0 < a && 0.0 <= b
    ensures 0.0 <= a * b
    ensures 0.0 < b ==> 0.0 < a * b
  {
  }

  /** A warped grid value, written out. */
  lemma WarpedSample(length: nat, bias: real, range: SampleRange, pow: Pow, i: nat)
    requires length > 0 && bias != 1.0
    ensures GetSample(Mantissa(length, bias), i, range, pow)
         == range.high - (pow(bias, i as real / length as real) - 1.0) / (bias - 1.0) * range.Distance()
  {
  }

  /** The bias-warped mantissa grid spans an ordered range too, given the laws of exponentiation,
      strictly falling when the range is not a point. */
  lemma WarpedMantissaSpans(length: nat, bias: real, range: SampleRange, pow: Pow)
    requires length > 0 && range.Ordered() && 0.0 < bias && bias != 1.0 && PowLaws(pow)
    ensures Spans(Mantissa(length, bias), range, pow)
    ensures range.low < range.high ==> forall i: nat, j: nat | i < j <= length ::
              GetSample(Mantissa(length, bias), i, range, pow) > GetSample(Mantissa(length, bias), j, range, pow)
  {
    WarpedMantissaEnds(length, bias, range, pow);
    forall i: nat, j: nat | i < j <= length
      ensures GetSample(Mantissa(length, bias), i, range, pow) >= GetSample(Mantissa(length, bias), j, range, pow)
      ensures range.low < range.high ==>
                GetSample(Mantissa(length, bias), i, range, pow) > GetSample(Mantissa(length, bias), j, range, pow)
    {
      WarpedMantissaStep(length, bias, range, pow, i, j);
    }
  }

  /** The exponent grid starts at 1 and falls for a base above 1; for a base below 1 it rises. */
  lemma ExponentFalloff(length: nat, bias: real, range: SampleRange, pow: Pow, i: nat, j: nat)
    requires PowLaws(pow) && 0.0 < bias && i < j
    ensures GetSample(Exponent(length, bias), 0, range, pow) == 1.0
    ensures 1.0 < bias ==> GetSample(Exponent(length, bias), i, range, pow) > GetSample(Exponent(length, bias), j, range, pow)
    ensures bias < 1.0 ==> GetSample(Exponent(length, bias), i, range, pow) < GetSample(Exponent(length, bias), j, range, pow)
  {
    assert -(0 as real) == 0.0;
    assert -(j as real) < -(i as real);
  }

  /** The search's bracket argument needs a grid that never rises: an exponent grid of at least
      one step is one when its base is above 1, and is not when its base is below 1. */
  lemma ExponentNonIncreasing(length: nat, bias: real, range: SampleRange, pow: Pow)
    requires PowLaws(pow) && 0.0 < bias && length >= 1
    ensures bias > 1.0 ==> NonIncreasing(Exponent(length, bias), range, pow)
    ensures bias < 1.0 ==> !NonIncreasing(Exponent(length, bias), range, pow)
  {
    var st := Exponent(length, bias);
    if bias > 1.0 {
      forall i: nat, j: nat | i < j <= length
        ensures GetSample(st, i, range, pow) > GetSample(st, j, range, pow)
      {
        ExponentFalloff(length, bias, range, pow, i, j);
      }
    } else if bias < 1.0 {
      ExponentFalloff(length, bias, range, pow, 0, 1);
    }
  }

  /** The free-standing mantissa step of src/crush.rs: `high_end` minus the warped or
      linear offset of `index` out of `mantissa` steps across `sample_range`. */
  function FindMSample(highEnd: real, sampleRange: real, mantissa: nat, index: nat, mBias: real, pow: Pow): (v: real)
    requires mantissa > 0
    // it is the mantissa step function over the range from `highEnd` down by `sampleRange`
    ensures v == GetSample(Mantissa(mantissa, mBias), index, SampleRange(highEnd, highEnd - sampleRange), pow)
  {
    highEnd - (if mBias == 1.0 then
                 var stepSize := sampleRange / mantissa as real;
                 stepSize * index as real
               else
                 var m := index as real / mantissa as real;
                 var position := (pow(mBias, m) - 1.0) / (mBias - 1.0);
                 position * sampleRange)
  }
}

=== FILE: vectors.dfy ===
/** The concrete cases of src/crush.rs's own tests, stated over the model. */
module Vectors {
  import opened Ranges
  import opened Quantizers
  import opened Steps
  import opened Search
  import opened Crush

  lemma SampleRangeVector()
    ensures SampleRange.New(4.0, 5.0).high == 5.0
    ensures SampleRange.New(4.0, 5.0).low == 4.0
    ensures SampleRange.New(4.0, 5.0).Distance() == 1.0
  {
  }

  lemma FindMSampleVectors(pow: Pow)
    ensures FindMSample(1.0, 1.0, 10, 0, 1.0, pow) == 1.0
    ensures FindMSample(1.0, 1.0, 10, 1, 1.0, pow) == 0.9
    ensures FindMSample(1.0, 1.0, 10, 2, 1.0, pow) == 0.8
    ensures FindMSample(1.0, 1.0, 4, 3, 1.0, pow) == 0.25
  {
  }

  /** The search state of the linear tests: `steps` steps over [0, 1], target 0.6. */
  function TestWindow(steps: nat, start: nat, length: nat): SearchState {
    SearchState(start, length, Mantissa(steps, 1.0), SampleRange(1.0, 0.0), 0.6)
  }

  /** A search that cuts from `s` to `t` ends where the search from `t` ends. */
  lemma CutsTo(s: SearchState, t: SearchState, r: CullResult, pow: Pow)
    requires s.searchType.WellFormed() && s.length >= 1 && s.Next(pow) == (CutHalf, t)
    requires t.length >= 1 && t.Run(pow) == r
    ensures s.Run(pow) == r
  {
    RunUnfolds(s, pow);
  }

  /** The tests' result is what the search over the whole grid settles on. */
  lemma TestSettles(steps: nat, pow: Pow)
    requires steps > 0
    ensures Crushed(steps, 1.0, SampleRange.New(1.0, 0.0), 0.6, Nearest, pow)
         == Settle(Nearest, TestWindow(steps, 0, steps).Run(pow))
  {
    assert SampleRange.New(1.0, 0.0) == SampleRange(1.0, 0.0);
    CrushedBySearch(steps, 1.0, SampleRange.New(1.0, 0.0), 0.6, Nearest, pow,
                    Settle(Nearest, TestWindow(steps, 0, steps).Run(pow)), 1.0);
  }

  /** The cuts the search makes over the 1-step test grid. */
  lemma TestCuts1(pow: Pow)
    ensures TestWindow(1, 0, 1).Next(pow).0 == TwoLeft(1.0, 0.0, 0.6)
  {
    assert GetSample(Mantissa(1, 1.0), 0, SampleRange(1.0, 0.0), pow) == 1.0;
    assert GetSample(Mantissa(1, 1.0), 1, SampleRange(1.0, 0.0), pow) == 0.0;
  }

  lemma LinearMantissa1(pow: Pow)
    ensures Crushed(1, 1.0, SampleRange.New(1.0, 0.0), 0.6, Nearest, pow) == 1.0
  {
    TestSettles(1, pow);
    TestCuts1(pow);
    RunUnfolds(TestWindow(1, 0, 1), pow);
    assert Nearest.QuantizeAbs(1.0, 0.0, 0.6) == 1.0;
  }

  /** The cuts the search makes over the 2-step test grid. */
  lemma TestCuts2(pow: Pow)
    ensures TestWindow(2, 0, 2).Next(pow) == (CutHalf, TestWindow(2, 0, 1))
    ensures TestWindow(2, 0, 1).Next(pow).0 == TwoLeft(1.0, 0.5, 0.6)
  {
    assert GetSample(Mantissa(2, 1.0), 1, SampleRange(1.0, 0.0), pow) == 0.5;
    assert GetSample(Mantissa(2, 1.0), 0, SampleRange(1.0, 0.0), pow) == 1.0;
  }

  lemma LinearMantissa2(pow: Pow)
    ensures Crushed(2, 1.0, SampleRange.New(1.0, 0.0), 0.6, Nearest, pow) == 0.5
  {
    TestSettles(2, pow);
    TestCuts2(pow);
    RunUnfolds(TestWindow(2, 0, 1), pow);
    CutsTo(TestWindow(2, 0, 2), TestWindow(2, 0, 1), TwoLeft(1.0, 0.5, 0.6), pow);
    assert Nearest.QuantizeAbs(1.0, 0.5, 0.6) == 0.5;
  }

  /** The cuts the search makes over the 4-step test grid. */
  lemma TestCuts4(pow: Pow)
    ensures TestWindow(4, 0, 4).Next(pow) == (CutHalf, TestWindow(4, 0, 2))
    ensures TestWindow(4, 0, 2).Next(pow) == (CutHalf, TestWindow(4, 1, 1))
    ensures TestWindow(4, 1, 1).Next(pow).0 == TwoLeft(0.75, 0.5, 0.6)
  {
    assert GetSample(Mantissa(4, 1.0), 2, SampleRange(1.0, 0.0), pow) == 0.5;
    assert GetSample(Mantissa(4, 1.0), 1, SampleRange(1.0, 0.0), pow) == 0.75;
  }

  lemma LinearMantissa4(pow: Pow)
    ensures Crushed(4, 1.0, SampleRange.New(1.0, 0.0), 0.6, Nearest, pow) == 0.5
  {
    TestSettles(4, pow);
    TestCuts4(pow);
    RunUnfolds(TestWindow(4, 1, 1), pow);
    CutsTo(TestWindow(4, 0, 2), TestWindow(4, 1, 1), TwoLeft(0.75, 0.5, 0.6), pow);
    CutsTo(TestWindow(4, 0, 4), TestWindow(4, 0, 2), TwoLeft(0.75, 0.5, 0.6), pow);
    assert Nearest.QuantizeAbs(0.75, 0.5, 0.6) == 0.5;
  }

  /** The 4-step test search makes 3 culls: `CeilLog2(4) + 1`. */
  lemma CullsOfTest4(pow: Pow)
    ensures TestWindow(4, 0, 4).Culls(pow) == 3 == CeilLog2(4) + 1
  {
    TestCuts4(pow);
  }

  /** The cuts the search makes over the 8-step test grid. */
  lemma TestCuts8(pow: Pow)
    ensures TestWindow(8, 0, 8).Next(pow) == (CutHalf, TestWindow(8, 0, 4))
    ensures TestWindow(8, 0, 4).Next(pow) == (CutHalf, TestWindow(8, 2, 2))
    ensures TestWindow(8, 2, 2).Next(pow) == (CutHalf, TestWindow(8, 3, 1))
    ensures TestWindow(8, 3, 1).Next(pow).0 == TwoLeft(0.625, 0.5, 0.6)
  {
    assert GetSample(Mantissa(8, 1.0), 4, SampleRange(1.0, 0.0), pow) == 0.5;
    assert GetSample(Mantissa(8, 1.0), 2, SampleRange(1.0, 0.0), pow) == 0.75;
    assert GetSample(Mantissa(8, 1.0), 3, SampleRange(1.0, 0.0), pow) == 0.625;
  }

  lemma LinearMantissa8(pow: Pow)
    ensures Crushed(8, 1.0, SampleRange.New(1.0, 0.0), 0.6, Nearest, pow) == 0.625
  {
    TestSettles(8, pow);
    TestCuts8(pow);
    RunUnfolds(TestWindow(8, 3, 1), pow);
    CutsTo(TestWindow(8, 2, 2), TestWindow(8, 3, 1), TwoLeft(0.625, 0.5, 0.6), pow);
    CutsTo(TestWindow(8, 0, 4), TestWindow(8, 2, 2), TwoLeft(0.625, 0.5, 0.6), pow);
    CutsTo(TestWindow(8, 0, 8), TestWindow(8, 0, 4), TwoLeft(0.625, 0.5, 0.6), pow);
    assert Nearest.QuantizeAbs(0.625, 0.5, 0.6) == 0.625;
  }

  /** The cuts the search makes over the 16-step test grid. */
  lemma TestCuts16(pow: Pow)
    ensures TestWindow(16, 0, 16).Next(pow) == (CutHalf, TestWindow(16, 0, 8))
    ensures TestWindow(16, 0, 8).Next(pow) == (CutHalf, TestWindow(16, 4, 4))
    ensures TestWindow(16, 4, 4).Next(pow) == (CutHalf, TestWindow(16, 6, 2))
    ensures TestWindow(16, 6, 2).Next(pow) == (CutHalf, TestWindow(16, 6, 1))
    ensures TestWindow(16, 6, 1).Next(pow).0 == TwoLeft(0.625, 0.5625, 0.6)
  {
    assert GetSample(Mantissa(16, 1.0), 8, SampleRange(1.0, 0.0), pow) == 0.5;
    assert GetSample(Mantissa(16, 1.0), 4, SampleRange(1.0, 0.0), pow) == 0.75;
    assert GetSample(Mantissa(16, 1.0), 6, SampleRange(1.0, 0.0), pow) == 0.625;
    assert GetSample(Mantissa(16, 1.0), 7, SampleRange(1.0, 0.0), pow) == 0.5625;
  }

  lemma LinearMantissa16(pow: Pow)
    ensures Crushed(16, 1.0, SampleRange.New(1.0, 0.0), 0.6, Nearest, pow) == 0.625
  {
    TestSettles(16, pow);
    TestCuts16(pow);
    RunUnfolds(TestWindow(16, 6, 1), pow);
    CutsTo(TestWindow(16, 6, 2), TestWindow(16, 6, 1), TwoLeft(0.625, 0.5625, 0.6), pow);
    CutsTo(TestWindow(16, 4, 4), TestWindow(16, 6, 2), TwoLeft(0.625, 0.5625, 0.6), pow);
    CutsTo(TestWindow(16, 0, 8), TestWindow(16, 4, 4), TwoLeft(0.625, 0.5625, 0.6), pow);
    CutsTo(TestWindow(16, 0, 16), TestWindow(16, 0, 8), TwoLeft(0.625, 0.5625, 0.6), pow);
    assert Nearest.QuantizeAbs(0.625, 0.5625, 0.6) == 0.625;
  }

  /** The cuts the search makes over the 32-step test grid. */
  lemma TestCuts32(pow: Pow)
    ensures TestWindow(32, 0, 32).Next(pow) == (CutHalf, TestWindow(32, 0, 16))
    ensures TestWindow(32, 0, 16).Next(pow) == (CutHalf, TestWindow(32, 8, 8))
    ensures TestWindow(32, 8, 8).Next(pow) == (CutHalf, TestWindow(32, 12, 4))
    ensures TestWindow(32, 12, 4).Next(pow) == (CutHalf, TestWindow(32, 12, 2))
    ensures TestWindow(32, 12, 2).Next(pow) == (CutHalf, TestWindow(32, 12, 1))
    ensures TestWindow(32, 12, 1).Next(pow).0 == TwoLeft(0.625, 0.59375, 0.6)
  {
    assert GetSample(Mantissa(32, 1.0), 16, SampleRange(1.0, 0.0), pow) == 0.5;
    assert GetSample(Mantissa(32, 1.0), 8, SampleRange(1.0, 0.0), pow) == 0.75;
    assert GetSample(Mantissa(32, 1.0), 12, SampleRange(1.0, 0.0), pow) == 0.625;
    assert GetSample(Mantissa(32, 1.0), 14, SampleRange(1.0, 0.0), pow) == 0.5625;
    assert GetSample(Mantissa(32, 1.0), 13, SampleRange(1.0, 0.0), pow) == 0.59375;
  }

  lemma LinearMantissa32(pow: Pow)
    ensures Crushed(32, 1.0, SampleRange.New(1.0, 0.0), 0.6, Nearest, pow) == 0.59375
  {
    TestSettles(32, pow);
    TestCuts32(pow);
    RunUnfolds(TestWindow(32, 12, 1), pow);
    CutsTo(TestWindow(32, 12, 2), TestWindow(32, 12, 1), TwoLeft(0.625, 0.59375, 0.6), pow);
    CutsTo(TestWindow(32, 12, 4), TestWindow(32, 12, 2), TwoLeft(0.625, 0.59375, 0.6), pow);
    CutsTo(TestWindow(32, 8, 8), TestWindow(32, 12, 4), TwoLeft(0.625, 0.59375, 0.6), pow);
    CutsTo(TestWindow(32, 0, 16), TestWindow(32, 8, 8), TwoLeft(0.625, 0.59375, 0.6), pow);
    CutsTo(TestWindow(32, 0, 32), TestWindow(32, 0, 16), TwoLeft(0.625, 0.59375, 0.6), pow);
    assert Nearest.QuantizeAbs(0.625, 0.59375, 0.6) == 0.59375;
  }

  /** The cuts the search makes over the 64-step test grid. */
  lemma TestCuts64(pow: Pow)
    ensures TestWindow(64, 0, 64).Next(pow) == (CutHalf, TestWindow(64, 0, 32))
    ensures TestWindow(64, 0, 32).Next(pow) == (CutHalf, TestWindow(64, 16, 16))
    ensures TestWindow(64, 16, 16).Next(pow) == (CutHalf, TestWindow(64, 24, 8))
    ensures TestWindow(64, 24, 8).Next(pow) == (CutHalf, TestWindow(64, 24, 4))
    ensures TestWindow(64, 24, 4).Next(pow) == (CutHalf, TestWindow(64, 24, 2))
    ensures TestWindow(64, 24, 2).Next(pow) == (CutHalf, TestWindow(64, 25, 1))
    ensures TestWindow(64, 25, 1).Next(pow).0 == TwoLeft(0.609375, 0.59375, 0.6)
  {
    assert GetSample(Mantissa(64, 1.0), 32, SampleRange(1.0, 0.0), pow) == 0.5;
    assert GetSample(Mantissa(64, 1.0), 16, SampleRange(1.0, 0.0), pow) == 0.75;
    assert GetSample(Mantissa(64, 1.0), 24, SampleRange(1.0, 0.0), pow) == 0.625;
    assert GetSample(Mantissa(64, 1.0), 28, SampleRange(1.0, 0.0), pow) == 0.5625;
    assert GetSample(Mantissa(64, 1.0), 26, SampleRange(1.0, 0.0), pow) == 0.59375;
    assert GetSample(Mantissa(64, 1.0), 25, SampleRange(1.0, 0.0), pow) == 0.609375;
  }

  lemma LinearMantissa64(pow: Pow)
    ensures Crushed(64, 1.0, SampleRange.New(1.0, 0.0), 0.6, Nearest, pow) == 0.59375
  {
    TestSettles(64, pow);
    TestCuts64(pow);
    RunUnfolds(TestWindow(64, 25, 1), pow);
    CutsTo(TestWindow(64, 24, 2), TestWindow(64, 25, 1), TwoLeft(0.609375, 0.59375, 0.6), pow);
    CutsTo(TestWindow(64, 24, 4), TestWindow(64, 24, 2), TwoLeft(0.609375, 0.59375, 0.6), pow);
    CutsTo(TestWindow(64, 24, 8), TestWindow(64, 24, 4), TwoLeft(0.609375, 0.59375, 0.6), pow);
    CutsTo(TestWindow(64, 16, 16), TestWindow(64, 24, 8), TwoLeft(0.609375, 0.59375, 0.6), pow);
    CutsTo(TestWindow(64, 0, 32), TestWindow(64, 16, 16), TwoLeft(0.609375, 0.59375, 0.6), pow);
    CutsTo(TestWindow(64, 0, 64), TestWindow(64, 0, 32), TwoLeft(0.609375, 0.59375, 0.6), pow);
    assert Nearest.QuantizeAbs(0.609375, 0.59375, 0.6) == 0.59375;
  }

  /** The linear-grid tests of src/crush.rs: 0.6 over [0, 1] with `Nearest`, for 0 to 64 steps. */
  lemma LinearMantissaVectors(pow: Pow)
    ensures Crushed(0, 1.0, SampleRange.New(1.0, 0.0), 0.6, Nearest, pow) == 1.0
    ensures Crushed(1, 1.0, SampleRange.New(1.0, 0.0), 0.6, Nearest, pow) == 1.0
    ensures Crushed(2, 1.0, SampleRange.New(1.0, 0.0), 0.6, Nearest, pow) == 0.5
    ensures Crushed(4, 1.0, SampleRange.New(1.0, 0.0), 0.6, Nearest, pow) == 0.5
    ensures Crushed(8, 1.0, SampleRange.New(1.0, 0.0), 0.6, Nearest, pow) == 0.625
    ensures Crushed(16, 1.0, SampleRange.New(1.0, 0.0), 0.6, Nearest, pow) == 0.625
    ensures Crushed(32, 1.0, SampleRange.New(1.0, 0.0), 0.6, Nearest, pow) == 0.59375
    ensures Crushed(64, 1.0, SampleRange.New(1.0, 0.0), 0.6, Nearest, pow) == 0.59375
  {
    LinearMantissa1(pow);
    LinearMantissa2(pow);
    LinearMantissa4(pow);
    LinearMantissa8(pow);
    LinearMantissa16(pow);
    LinearMantissa32(pow);
    LinearMantissa64(pow);
  }

  /** Directed rounding keeps a grid value the search probes as a centre. A grid value the
      search ends on as one end of the last pair is kept only when the policy picks that end:
      over [0, 1] with 2 steps, 1.0 ends as the upper end, so `RoundUp` keeps it and `RoundDown`
      moves it to 0.5; 0.0 ends as the lower end, so `RoundUp` moves it to 0.5. */
  lemma DirectedRoundingAtWindowEnds(pow: Pow)
    ensures Crushed(2, 1.0, SampleRange.New(1.0, 0.0), 0.5, RoundUp, pow) == 0.5
    ensures Crushed(2, 1.0, SampleRange.New(1.0, 0.0), 1.0, RoundDown, pow) == 0.5
    ensures Crushed(2, 1.0, SampleRange.New(1.0, 0.0), 1.0, RoundUp, pow) == 1.0
    ensures Crushed(2, 1.0, SampleRange.New(1.0, 0.0), 0.0, RoundUp, pow) == 0.5
  {
    var grid, range := Mantissa(2, 1.0), SampleRange(1.0, 0.0);
    assert SampleRange.New(1.0, 0.0) == range;
    assert GetSample(grid, 0, range, pow) == 1.0;
    assert GetSample(grid, 1, range, pow) == 0.5;
    assert GetSample(grid, 2, range, pow) == 0.0;

    var centre := SearchState(0, 2, grid, range, 0.5);
    RunUnfolds(centre, pow);
    CrushedBySearch(2, 1.0, range, 0.5, RoundUp, pow, Settle(RoundUp, centre.Run(pow)), 1.0);

    var top := SearchState(0, 2, grid, range, 1.0);
    assert top.Next(pow) == (CutHalf, top.(length := 1));
    CutsTo(top, top.(length := 1), TwoLeft(1.0, 0.5, 1.0), pow);
    CrushedBySearch(2, 1.0, range, 1.0, RoundDown, pow, Settle(RoundDown, top.Run(pow)), 1.0);
    CrushedBySearch(2, 1.0, range, 1.0, RoundUp, pow, Settle(RoundUp, top.Run(pow)), 1.0);

    var bottom := SearchState(0, 2, grid, range, 0.0);
    assert bottom.Next(pow) == (CutHalf, bottom.(start := 1, length := 1));
    CutsTo(bottom, bottom.(start := 1, length := 1), TwoLeft(0.5, 0.0, 0.0), pow);
    CrushedBySearch(2, 1.0, range, 0.0, RoundUp, pow, Settle(RoundUp, bottom.Run(pow)), 1.0);
  }

  /** With no mantissa steps a magnitude above `high` is still answered by the policy,
      between `high` and `low`, and the sign is put back. */
  lemma NoStepsAboveCeiling(pow: Pow)
    ensures Crushed(0, 1.0, SampleRange.New(0.5, 0.25), 0.7, Nearest, pow) == 0.5
    ensures Crushed(0, 1.0, SampleRange.New(0.5, 0.25), -0.7, RoundDown, pow) == -0.25
  {
    assert SampleRange.New(0.5, 0.25) == SampleRange(0.5, 0.25);
  }
}
